=== FILE: README.md ===
# poetry-db-fetcher in Dafny

A model of the path a poem takes in poetry-db-fetcher, from the PoetryDB web
service into the `poems` table, with proofs about it. The path has three
stages:

- **Client** (`PoetryDBClient` in `poetry_client.py`). The endpoint is built
  from the requested count and the request URL is built from that. The
  decoded answer of the random-poem call is shaped into a list. The titles
  and authors calls swallow any failure.
- **Normalizer and store** (`DatabaseConnection` in `conn.py`).
  - `insert_poem` turns a loosely shaped payload into the four INSERT
    parameters `(title, author, lines, linecount)`, then executes the
    INSERT with commit-or-rollback.
  - `insert_poems_batch` tallies `(successful, failed)` over a list.
  - `get_all_poems` lists the table in id order.
- **Orchestrator** (`fetch_random_poems` and `main` in `fetch_data.py`). It
  requests poems, runs the batch and the final commit, and turns every
  exception into `False`, except when the handler's own rollback fails on a
  connection that has gone away; that exception escapes. The database
  object and the client are closed on every path.

The outside world becomes inputs to the model:
- The HTTP exchange is a `Client.HttpOutcome`: no response, or a status and a
  body that may fail to decode.
- Each INSERT meets a server verdict `Store.DbVerdict`: stored, refused,
  connection unreachable, or connection lost.
- The final commit of `fetch_random_poems` either goes through or fails
  (`commitOk`). Autocommit is on (conn.py:33), so this commit contacts no
  server and fails only on a connection that is gone.

Decoded JSON is the datatype `JsonValue.Json`. Objects keep their key/value
pairs in document order, and lookup returns the last value for a repeated key,
as `json.loads` does. The table is a map from serial id to row plus the next
id (`Store.Table`).

Python exceptions that the code raises and does not catch are outcomes of the
model, not excluded inputs:
- `insert_poem` reports them as the error of its `Result`.
- The batch stops with them in `Batch.BatchOutcome.tally`.
- The orchestrator turns them into `False`, or lets them escape in
  `FetchData.Run.result`.

There are four such exceptions:
- a list whose first element is not a dict (`AttributeError` on `.get`);
- a truthy `lines` value that is not iterable, namely `true` or a non-zero
  number (`TypeError` from `list`);
- the read-before-assignment at conn.py:95 (see Findings);
- psycopg2's `InterfaceError` ("connection already closed"): once the
  connection has gone away, the rollbacks at conn.py:76 and conn.py:138 raise
  it, and so does the one at fetch_data.py:39. It is not a subclass of
  psycopg2's `DatabaseError`, and in the source it carries the
  `OperationalError` of the failed statement as its context.

Some behaviours of the code are easy to misread:
- `title` and `author` take their defaults only when the key is absent
  (conn.py:107-108). A present empty string or null is kept.
- A payload that is neither a list nor a dict makes `insert_poem` return
  `False` (conn.py:100-104). So does an empty list, in the intended reading
  of conn.py:94-98 (see Findings); as written, every list raises.
- Each INSERT commits on its own: autocommit is on (conn.py:33) and
  conn.py:132 commits after every statement. The docstring at conn.py:155
  speaks of a single transaction, but the rollback in `fetch_random_poems`
  cannot undo rows the batch already committed, and `Batch.BatchListing`
  states that they stay.

Files:
- `results.dfy`: `Option` and `Result`.
- `errors.dfy`: the exceptions.
- `json_value.dfy`: decoded JSON, `dict.get`, dict key order.
- `decimal.dfy`: decimal text and the `int(str)` conversion.
- `normalizer.dfy`: payload to row.
- `store.dfy`: table, single insert, listing.
- `batch.dfy`: the batch.
- `client.dfy`: the web-service client.
- `fetch_data.dfy`: the orchestrator.

## Model

| member | source | states |
|---|---|---|
| JsonValue.Get | conn.py:107-111 | `d.get(key, default)` gives the value stored under the key when the key is present, and the default exactly when it is absent |
| JsonValue.Keys | conn.py:116 | iterating a dict yields each key once, exactly the keys present, and no more keys than pairs |
| JsonValue.KeysInInsertionOrder | conn.py:116 | the keys come in the order of their first insertion: wherever a later key occurs, an earlier key has occurred before it |
| Decimal.NatToDecimal | poetry_client.py:63 | the decimal text of a count is all ASCII digits, non-empty, with no leading zero |
| Decimal.ValueOfDecimal | poetry_client.py:63 | the decimal text of `n` denotes `n` |
| Decimal.ParseIntOfDecimal | conn.py:123-124 | `int` reads back the number written in decimal, bare, with `+` or with `-` (then its negation) |
| Decimal.ParseIntIgnoresSurroundingSpace | conn.py:123-124 | whitespace `int` skips (ASCII space, tab, newline, vertical tab, form feed, carriage return, and the non-ASCII spaces) before and after the digits does not change what `int` reads |
| Decimal.SeparatorIsNotSpace | conn.py:123-126 | the separators U+001C and U+001F next to the digits make `int` fail, although `str.isspace` accepts them |
| Decimal.ParseIntAcceptsOnlyDecimal | conn.py:123-126 | whatever `int` accepts is, after the surrounding whitespace, ASCII digits with at most one leading sign, and it reads as the number they denote (negated for `-`) |
| Decimal.ParseIntNeedsDigit | conn.py:123-126 | a string with no digit is rejected by `int` (the `ValueError` path) |
| Normalizer.CoerceLines | conn.py:110-116 | null, `false` and `0` give no lines, a string is one line, a list keeps its elements in order, a dict gives its keys once each in insertion order as strings, and only `true` or a non-zero number raises `TypeError` |
| Normalizer.CoerceLinecount | conn.py:118-126 | null and values `int` rejects fall back to the number of lines; integers, booleans and parsable strings are kept unchecked |
| Normalizer.FromRecord | conn.py:106-126 | title and author default exactly when the key is absent; the row's lines are the coerced `lines` value and its count the coerced `linecount` value over those lines; the record raises exactly when `lines` is `true` or a non-zero number, and then with `TypeError` |
| Normalizer.Normalize | conn.py:94-104 | an empty list and only it gives no data; a non-container is rejected; a list whose first element is not a dict raises `AttributeError`; only `TypeError` or `AttributeError` is ever raised |
| Normalizer.NormalizeAsWritten | conn.py:94-98 | as written, every list raises `UnboundLocalError`, and every other payload is handled as intended |
| Normalizer.ServiceRecordRoundTrip | conn.py:106-126 | a record shaped as the service sends it (linecount as decimal text) normalizes to exactly its title, author, lines and count |
| Normalizer.ServiceRecordFields | conn.py:107-119 | each of the four keys of a service record is found with the value written for it |
| Normalizer.OnlyFirstElementMatters | conn.py:94-98 | for a non-empty list only element 0 matters, and a dict there is handled as if it came alone |
| Normalizer.EmptyRecordDefaults | conn.py:107-121 | an empty dict gives the default title and author, no lines, and count 0 |
| Normalizer.LinecountFallback | conn.py:119-126 | whatever else a record holds, a `linecount` string that `int` rejects falls back to the number of lines, and an integer `linecount` is kept even when it contradicts them |
| Normalizer.MalformedCounts | conn.py:123-126 | `int` rejects the strings "12a", "1.5" and "1 2", so such counts take the fallback |
| Normalizer.ListPayloadDiscrepancy | conn.py:94-98 | a one-dict list raises as written, while the intended code handles it as that dict |
| Store.Execute | conn.py:128-139 | an INSERT returns True exactly when the server stores it and raises `InterfaceError` exactly when the connection is lost; after a normal return a connection exists exactly when one existed before or the server was reachable |
| Store.InsertPoem | conn.py:79-139 | raises exactly when normalization raises (with its exception) or a normalized row meets a lost connection (with `InterfaceError`); True exactly when the payload normalizes and is stored, and then the row is added under the next id; False leaves the table unchanged; a connection exists afterwards exactly when one existed or the payload normalized and its INSERT found the server reachable, so an empty list or a non-container never connects |
| Store.GetAllPoems | conn.py:141-144 | the listing is strictly ascending by id and holds exactly the stored rows |
| Store.InsertAll | conn.py:128-134 | committing rows one by one advances the id counter by their number and keeps every earlier row |
| Store.InsertListing | conn.py:132-144 | after a committed INSERT the listing is the old listing with the new row, under the next id, at its end |
| Store.InsertAllListing | conn.py:132-144 | committing several rows appends them to the listing in order, with consecutive ids |
| Store.InsertPoemListing | conn.py:128-139 | a True from `insert_poem` appends the normalized row at the end of the listing; a False leaves the listing unchanged |
| Batch.InsertPoemsBatch | conn.py:154-166 | a tally comes back exactly when no payload raises under its verdict, and it counts every payload; earlier rows are kept, the id counter never goes back, and a connection appears only through a normalized payload whose INSERT found the server reachable |
| Batch.BatchTable | conn.py:154-166 | the table after the batch holds, appended in payload order, the rows stored before the first payload that raises |
| Batch.BatchError | conn.py:159-160 | a batch that raises does so with the exception of its first raising payload: the normalizer's, or `InterfaceError` for a lost connection |
| Batch.BatchSuccesses | conn.py:159-163 | when nothing raises, the success count is the number of rows the server stored |
| Batch.BatchListing | conn.py:154-166 | the rows committed by the batch, including those before a later exception, appear after the old listing with consecutive fresh ids |
| Batch.TallyCountsMalformed | conn.py:154-166 | with a server that stores every row, N payloads of which K are malformed are tallied as (N - K, K) |
| Batch.FirstRaise | conn.py:159-160 | the position of the first payload that raises under its verdict: none before it raises, and the one at it does |
| Batch.GoResumes | conn.py:156-163 | carrying the counters through the loop gives the batch's tally with the counters added on |
| Batch.InsertPoemsBatchLoop | conn.py:156-166 | the `for` loop with its two counters computes the batch outcome, and on return the counters add up to the number of payloads |
| Client.RandomEndpoint | poetry_client.py:61-63 | a count up to one asks for `random`; a larger count is appended after `random/` as its decimal digits without a leading zero, which denote the count and read back as it |
| Client.Url | poetry_client.py:32 | the URL is the base URL followed directly by the endpoint |
| Client.MakeRequest | poetry_client.py:32-46 | decoded data comes back exactly when there is a response with a non-error status and a decodable body; every failure is the one `ApiException` |
| Client.ShapeRandom | poetry_client.py:66-72 | a dict is wrapped in a one-element list, a list is passed through, and the result is empty exactly for other shapes and the empty list |
| Client.GetRandomPoem | poetry_client.py:48-72 | the random endpoint for the count is requested; it raises exactly when the request fails, always with `ApiException`, and a successful request returns the decoded data shaped into a list |
| Client.GetPoemTitles | poetry_client.py:74-89 | a failed request gives an empty list; a successful one returns the data unchanged |
| Client.GetPoemAuthors | poetry_client.py:91-105 | a failed request gives an empty list; a successful one returns the data unchanged |
| Client.SinglePoemUrl | poetry_client.py:61-63 | every count up to one, zero and negatives included, requests `https://poetrydb.org/random` |
| Client.RandomUrlIdentifiesCount | poetry_client.py:61-63 | different counts above one request different URLs |
| Client.TitlesDoNotWrap | poetry_client.py:66-89 | the same dict answer is wrapped by the random-poem call and handed back as it is by the titles call |
| FetchData.StoreFetched | fetch_data.py:17-41 | a failed fetch or no poems gives False with the table untouched and nothing committed or rolled back; otherwise the table is the batch's, True comes exactly when the batch tallies a success and the commit goes through, the rollback goes through exactly when a live connection exists and the batch raised, and an exception escapes exactly when the connection is lost during the batch or before the commit |
| FetchData.StoreBatch | fetch_data.py:28-41 | True exactly when the batch returns a tally with a success and the commit goes through; the table keeps every row the batch committed; the rollback goes through exactly when a live connection exists and the batch raised; `InterfaceError` escapes exactly when the connection was lost during the batch or before the commit |
| FetchData.FetchRandomPoems | fetch_data.py:6-41 | the request for `count` comes first; the database object and then the client are closed last and only there; a failed or empty fetch leaves the table as it was and returns False; otherwise the table is the batch's, True comes exactly when the batch tallies a success and the commit goes through, the rollback goes through exactly when a live connection exists and the batch raised, and only `InterfaceError` escapes, exactly when the connection is lost |
| FetchData.RunFetchCommand | fetch_data.py:43-44 | `main` performs one run of `fetch_random_poems(count=1)`: it requests `https://poetrydb.org/random` first and closes both resources last, leaves the table untouched on a failed or empty fetch, and otherwise gives the batch's table, True exactly on a tallied success and a commit, the rollback exactly when a live connection exists and the batch raised, and `InterfaceError` exactly when the connection is lost |

## Left out

- `setup.py` (creating the database and its schema) and `view_poems.py` (printing the table) are not part of this model.
- Real HTTP and PostgreSQL are not modelled. This covers the requests session, its 10-second timeout, response timing, psycopg2 cursors, the `Json` adapter and autocommit. They appear only as the inputs `HttpOutcome`, `DbVerdict` and `commitOk`.
- Environment configuration (`load_dotenv`, `os.getenv`) and all printed messages are left out. So are the text of exception messages and `traceback.print_exc`.
- The server's `created_at` column is left out: a stored row has only its id and the four INSERT parameters.
- `execute_query` (conn.py:50-77) is collapsed into the four verdicts. A failed connection attempt makes its own rollback call fail on `None`, which `insert_poem` catches; the model reports this as `Unreachable`, which returns False and leaves no connection.
- Floating-point JSON numbers are not part of `Json`. So `int()` truncating a float `linecount` is not modelled.
- Decimal.ParseInt: accepts ASCII digits with an optional sign, surrounded by the whitespace `int` skips. Python's `int` also accepts underscores between digits and non-ASCII decimal digits, and it limits conversions to 4300 digits.
- Store.InsertPoem: a refused INSERT does not advance the id counter. A PostgreSQL serial sequence does advance, so the real table can have gaps where the model's ids are consecutive. Ids still increase strictly in insertion order in both.
- Store.Execute: the verdict is an input independent of the row, although some rows fix the outcome in PostgreSQL. psycopg2 cannot adapt a dict, so a JSON object as `title` or `author` always fails the INSERT (the `Refused` outcome). The `integer` column refuses a `linecount` outside the 32-bit range. A title or author that is not a string is stored as its text, and reads back as a string. Under a `Stored` verdict the model commits such rows unchanged, so `GetAllPoems` can list rows the program never produces.
- Store.Execute: an `Unreachable` verdict while a connection is already open is treated as a failed INSERT that changes nothing. The source attempts no connection in that state.
- A lost connection stays lost in the source, so every later call on it fails too. The verdicts are inputs, and the model does not force those after a `Lost` to be `Lost` as well. Inside a batch and a run this never matters, because the first `Lost` ends both.
- Batch.InsertPoemsBatch: after a `Lost` verdict met by a database object that had not connected yet, the outcome's `db` reports no connection, although the source then holds a dead one. `FetchData.StoreBatch` does not consult it in that case.
- FetchData.FetchRandomPoems: closing the client and the database object is recorded as an event. Failures inside `close` itself are not modelled.
- The self-test block under `if __name__ == "__main__"` in conn.py is not modelled.

## Findings

| source | as written | input that shows it | evidently intended | confidence | as-written member | corrected member |
|---|---|---|---|---|---|---|
| conn.py:94-98 | the list branch tests `len(poem_data)` before `poem_data` is assigned, so every list payload raises `UnboundLocalError` | `insert_poem([{"title": "x"}])`, or a batch element that is itself such a list | an empty list returns False, and a non-empty list is handled as its first element | high; not executed | Normalizer.NormalizeAsWritten, Normalizer.ListPayloadDiscrepancy | Normalizer.Normalize, Normalizer.OnlyFirstElementMatters |

=== FILE: batch.dfy ===
/**
 * `DatabaseConnection.insert_poems_batch` (conn.py:154-166): every payload
 * goes through `insert_poem` in order, each INSERT commits on its own, and a
 * False is tallied rather than stopping the loop. An exception raised by
 * `insert_poem` is not caught here; it leaves the batch with the rows
 * committed before it still in the table.
 */
module Batch {
  import opened Results
  import opened JsonValue
  import opened Errors
  import opened Normalizer
  import opened Store

  /** The `(successful, failed)` pair the batch returns. */
  datatype Tally = Tally(successful: nat, failed: nat)

  /**
   * The connection after the batch, and its tally or the exception that
   * ended it; after an exception, the connection as the raising call found it.
   */
  datatype BatchOutcome = BatchOutcome(db: Db, tally: Result<Tally, Exc>)

  /** Counts one more call of `insert_poem` in front of the tally of the rest. */
  function Count(ok: bool, rest: Result<Tally, Exc>): Result<Tally, Exc>
  {
    match rest
    case Ok(t) => Ok(if ok then Tally(t.successful + 1, t.failed) else Tally(t.successful, t.failed + 1))
    case Err(e) => Err(e)
  }

  /**
   * The batch: payload `i` meets the server's verdict `verdicts[i]`. It
   * returns a tally exactly when no payload raises, the tally accounts for
   * every payload, and the rows already in the table are never touched.
   */
  function InsertPoemsBatch(db: Db, poems: seq<Json>, verdicts: seq<DbVerdict>): (r: BatchOutcome)
    requires |verdicts| == |poems|
    ensures r.tally.Ok? ==> r.tally.value.successful + r.tally.value.failed == |poems|
    ensures r.tally.Ok? <==> forall i :: 0 <= i < |poems| ==> !Raises(poems[i], verdicts[i])
    ensures r.db.table.nextId >= db.table.nextId
    ensures forall id :: id in db.table.rows && id < db.table.nextId ==>
      id in r.db.table.rows && r.db.table.rows[id] == db.table.rows[id]
    ensures db.connected ==> r.db.connected
    ensures r.db.connected ==>
      db.connected || exists i :: 0 <= i < |poems| && Normalize(poems[i]).Ready? && !verdicts[i].Unreachable?
    ensures r.tally.Ok? && r.tally.value.successful > 0 ==> r.db.connected
    decreases |poems|
  {
    if |poems| == 0 then BatchOutcome(db, Ok(Tally(0, 0)))
    else
      match InsertPoem(db, poems[0], verdicts[0])
      case Err(e) => BatchOutcome(db, Err(e))
      case Ok(step) =>
        var rest := InsertPoemsBatch(step.db, poems[1..], verdicts[1..]);
        assert forall i :: 1 <= i < |poems| ==> poems[1..][i - 1] == poems[i];
        assert forall i :: 1 <= i < |verdicts| ==> verdicts[1..][i - 1] == verdicts[i];
        BatchOutcome(rest.db, Count(step.ok, rest.tally))
  }

  /** The rows the batch commits: those of normalized payloads the server stored, in payload order. */
  function StoredRows(poems: seq<Json>, verdicts: seq<DbVerdict>): (r: seq<Row>)
    requires |verdicts| == |poems|
    ensures |r| <= |poems|
    decreases |poems|
  {
    if |poems| == 0 then []
    else
      FirstStored(poems, verdicts) + StoredRows(poems[1..], verdicts[1..])
  }

  /** The position of the first payload that raises, or the length when none does. */
  function FirstRaise(poems: seq<Json>, verdicts: seq<DbVerdict>): (k: nat)
    requires |verdicts| == |poems|
    ensures k <= |poems|
    ensures forall i :: 0 <= i < k ==> !Raises(poems[i], verdicts[i])
    ensures k < |poems| ==> Raises(poems[k], verdicts[k])
    decreases |poems|
  {
    if |poems| == 0 then 0
    else if Raises(poems[0], verdicts[0]) then 0
    else
      var k := 1 + FirstRaise(poems[1..], verdicts[1..]);
      assert forall i :: 1 <= i < k ==> poems[i] == poems[1..][i - 1] && verdicts[i] == verdicts[1..][i - 1];
      k
  }

  /** How many payloads never reach the database: empty lists and non-container values. */
  function Malformed(poems: seq<Json>): (n: nat)
    ensures n <= |poems|
    decreases |poems|
  {
    if |poems| == 0 then 0
    else (if Normalize(poems[0]).NoData? || Normalize(poems[0]).WrongType? then 1 else 0) + Malformed(poems[1..])
  }

  /** The row payload `poems[0]` contributes to the committed rows, if any. */
  function FirstStored(poems: seq<Json>, verdicts: seq<DbVerdict>): (r: seq<Row>)
    requires |verdicts| == |poems| > 0
    ensures |r| <= 1
  {
    if Normalize(poems[0]).Ready? && verdicts[0].Stored? then [Normalize(poems[0]).row] else []
  }

  lemma PrefixStep(poems: seq<Json>, verdicts: seq<DbVerdict>)
    requires |verdicts| == |poems| > 0
    requires !Raises(poems[0], verdicts[0])
    ensures FirstRaise(poems, verdicts) == 1 + FirstRaise(poems[1..], verdicts[1..])
    ensures var k := FirstRaise(poems[1..], verdicts[1..]);
      StoredRows(poems[..k + 1], verdicts[..k + 1]) ==
        FirstStored(poems, verdicts) + StoredRows(poems[1..][..k], verdicts[1..][..k])
  {
    var k := FirstRaise(poems[1..], verdicts[1..]);
    StoredRowsCons(poems, verdicts, k);
  }

  lemma StoredRowsCons(poems: seq<Json>, verdicts: seq<DbVerdict>, k: nat)
    requires |verdicts| == |poems| > k
    ensures StoredRows(poems[..k + 1], verdicts[..k + 1]) ==
      FirstStored(poems, verdicts) + StoredRows(poems[1..][..k], verdicts[1..][..k])
  {
    var p := poems[..k + 1];
    var v := verdicts[..k + 1];
    assert p[0] == poems[0] && v[0] == verdicts[0];
    assert FirstStored(p, v) == FirstStored(poems, verdicts);
    assert p[1..] == poems[1..][..k];
    assert v[1..] == verdicts[1..][..k];
    assert StoredRows(p, v) == FirstStored(p, v) + StoredRows(p[1..], v[1..]);
  }

  lemma InsertAllFirst(t: Table, first: seq<Row>, rows: seq<Row>)
    requires |first| <= 1
    ensures InsertAll(t, first + rows) == InsertAll(if first == [] then t else t.Insert(first[0]), rows)
  {
    if first == [] {
      assert first + rows == rows;
    } else {
      assert (first + rows)[1..] == rows;
    }
  }

  lemma StepTable(db: Db, poems: seq<Json>, verdicts: seq<DbVerdict>)
    requires |verdicts| == |poems| > 0
    requires !Raises(poems[0], verdicts[0])
    ensures var step := InsertPoem(db, poems[0], verdicts[0]).value;
      var first := FirstStored(poems, verdicts);
      step.db.table == (if first == [] then db.table else db.table.Insert(first[0]))
  {
  }

  /**
   * What the batch leaves in the table: the rows stored before the first
   * payload that raises, in payload order.
   */
  lemma {:induction false} BatchTable(db: Db, poems: seq<Json>, verdicts: seq<DbVerdict>)
    requires |verdicts| == |poems|
    ensures var k := FirstRaise(poems, verdicts);
      InsertPoemsBatch(db, poems, verdicts).db.table == InsertAll(db.table, StoredRows(poems[..k], verdicts[..k]))
    decreases |poems|
  {
    var k := FirstRaise(poems, verdicts);
    if |poems| == 0 || Raises(poems[0], verdicts[0]) {
      assert poems[..k] == [] && verdicts[..k] == [];
    } else {
      var step := InsertPoem(db, poems[0], verdicts[0]).value;
      var first := FirstStored(poems, verdicts);
      var restRows := StoredRows(poems[1..][..k - 1], verdicts[1..][..k - 1]);
      PrefixStep(poems, verdicts);
      calc {
        InsertPoemsBatch(db, poems, verdicts).db.table;
      == { UnfoldStep(db, poems, verdicts); }
        InsertPoemsBatch(step.db, poems[1..], verdicts[1..]).db.table;
      == { BatchTable(step.db, poems[1..], verdicts[1..]); }
        InsertAll(step.db.table, restRows);
      == { StepTable(db, poems, verdicts); }
        InsertAll(if first == [] then db.table else db.table.Insert(first[0]), restRows);
      == { InsertAllFirst(db.table, first, restRows); }
        InsertAll(db.table, first + restRows);
      }
    }
  }

  /** The batch raises what its first raising payload raises under its verdict. */
  lemma {:induction false} BatchError(db: Db, poems: seq<Json>, verdicts: seq<DbVerdict>)
    requires |verdicts| == |poems|
    ensures var k := FirstRaise(poems, verdicts); var r := InsertPoemsBatch(db, poems, verdicts);
      r.tally.Err? ==> k < |poems| && r.tally.error == RaisedBy(poems[k], verdicts[k])
    decreases |poems|
  {
    if |poems| > 0 {
      if Raises(poems[0], verdicts[0]) {
        UnfoldRaise(db, poems, verdicts);
      } else {
        var step := InsertPoem(db, poems[0], verdicts[0]).value;
        UnfoldStep(db, poems, verdicts);
        BatchError(step.db, poems[1..], verdicts[1..]);
        PrefixStep(poems, verdicts);
      }
    }
  }

  /** When no payload raises, the success count is the number of rows committed. */
  lemma {:induction false} BatchSuccesses(db: Db, poems: seq<Json>, verdicts: seq<DbVerdict>)
    requires |verdicts| == |poems|
    ensures var r := InsertPoemsBatch(db, poems, verdicts);
      r.tally.Ok? ==> r.tally.value.successful == |StoredRows(poems, verdicts)|
    decreases |poems|
  {
    if |poems| > 0 && !Raises(poems[0], verdicts[0]) {
      var step := InsertPoem(db, poems[0], verdicts[0]).value;
      UnfoldStep(db, poems, verdicts);
      BatchSuccesses(step.db, poems[1..], verdicts[1..]);
      assert StoredRows(poems, verdicts) == FirstStored(poems, verdicts) + StoredRows(poems[1..], verdicts[1..]);
    }
  }

  /**
   * Rows committed by the batch stay readable through `get_all_poems` after
   * the batch, in the order they were inserted and with fresh consecutive
   * ids, even when a later payload raises: each INSERT committed on its own
   * although the method's docstring speaks of a single transaction.
   */
  lemma BatchListing(db: Db, poems: seq<Json>, verdicts: seq<DbVerdict>)
    requires |verdicts| == |poems|
    requires db.table.Valid()
    ensures var k := FirstRaise(poems, verdicts); var r := InsertPoemsBatch(db, poems, verdicts);
      r.db.table.Valid() &&
      GetAllPoems(r.db.table) == GetAllPoems(db.table) + Numbered(db.table.nextId, StoredRows(poems[..k], verdicts[..k]))
  {
    var k := FirstRaise(poems, verdicts);
    BatchTable(db, poems, verdicts);
    InsertAllListing(db.table, StoredRows(poems[..k], verdicts[..k]));
  }

  /**
   * With a server that stores every row it is sent, a batch of N payloads of
   * which K are malformed is tallied as (N - K, K).
   */
  lemma {:induction false} TallyCountsMalformed(db: Db, poems: seq<Json>, verdicts: seq<DbVerdict>)
    requires |verdicts| == |poems|
    requires forall i :: 0 <= i < |verdicts| ==> verdicts[i] == Stored
    ensures var r := InsertPoemsBatch(db, poems, verdicts);
      r.tally.Ok? ==> r.tally.value == Tally(|poems| - Malformed(poems), Malformed(poems))
    decreases |poems|
  {
    if |poems| > 0 && !Raises(poems[0], verdicts[0]) {
      var step := InsertPoem(db, poems[0], verdicts[0]).value;
      assert forall i :: 0 <= i < |verdicts[1..]| ==> verdicts[1..][i] == verdicts[i + 1];
      TallyCountsMalformed(step.db, poems[1..], verdicts[1..]);
    }
  }

  /** The tally carried from the payloads already processed onto the outcome of the rest. */
  function Resume(successful: nat, failed: nat, rest: BatchOutcome): BatchOutcome
  {
    match rest.tally
    case Ok(t) => BatchOutcome(rest.db, Ok(Tally(successful + t.successful, failed + t.failed)))
    case Err(e) => rest
  }

  lemma ResumeCount(successful: nat, failed: nat, ok: bool, rest: BatchOutcome)
    ensures Resume(successful, failed, BatchOutcome(rest.db, Count(ok, rest.tally))) ==
      Resume(if ok then successful + 1 else successful, if ok then failed else failed + 1, rest)
  {
  }

  lemma UnfoldRaise(db: Db, poems: seq<Json>, verdicts: seq<DbVerdict>)
    requires |verdicts| == |poems| > 0
    ensures var call := InsertPoem(db, poems[0], verdicts[0]);
      call.Err? ==> InsertPoemsBatch(db, poems, verdicts) == BatchOutcome(db, Err(call.error))
  {
  }

  lemma UnfoldStep(db: Db, poems: seq<Json>, verdicts: seq<DbVerdict>)
    requires |verdicts| == |poems| > 0
    ensures var call := InsertPoem(db, poems[0], verdicts[0]);
      call.Ok? ==>
        var rest := InsertPoemsBatch(call.value.db, poems[1..], verdicts[1..]);
        InsertPoemsBatch(db, poems, verdicts) == BatchOutcome(rest.db, Count(call.value.ok, rest.tally))
  {
  }

  /**
   * The loop of conn.py:159-163 read as a tail-recursive function: the
   * counters so far, carried over the payloads still to come.
   */
  function Go(successful: nat, failed: nat, db: Db, poems: seq<Json>, verdicts: seq<DbVerdict>): BatchOutcome
    requires |verdicts| == |poems|
    decreases |poems|
  {
    if |poems| == 0 then BatchOutcome(db, Ok(Tally(successful, failed)))
    else
      match InsertPoem(db, poems[0], verdicts[0])
      case Err(e) => BatchOutcome(db, Err(e))
      case Ok(step) =>
        Go(if step.ok then successful + 1 else successful, if step.ok then failed else failed + 1,
           step.db, poems[1..], verdicts[1..])
  }

  /** Carrying the counters along gives the recursive batch with the counters added on. */
  lemma {:induction false} GoResumes(successful: nat, failed: nat, db: Db, poems: seq<Json>, verdicts: seq<DbVerdict>)
    requires |verdicts| == |poems|
    ensures Go(successful, failed, db, poems, verdicts) == Resume(successful, failed, InsertPoemsBatch(db, poems, verdicts))
    decreases |poems|
  {
    if |poems| > 0 {
      var call := InsertPoem(db, poems[0], verdicts[0]);
      if call.Err? {
        UnfoldRaise(db, poems, verdicts);
      } else {
        var ok := call.value.ok;
        UnfoldStep(db, poems, verdicts);
        GoResumes(if ok then successful + 1 else successful, if ok then failed else failed + 1,
                  call.value.db, poems[1..], verdicts[1..]);
        ResumeCount(successful, failed, ok, InsertPoemsBatch(call.value.db, poems[1..], verdicts[1..]));
      }
    }
  }

  /**
   * The `for` loop of conn.py:159-163 as written: after `i` payloads the
   * counters add up to `i`, and the loop computes the batch outcome above.
   */
  method InsertPoemsBatchLoop(db: Db, poems: seq<Json>, verdicts: seq<DbVerdict>) returns (r: BatchOutcome)
    requires |verdicts| == |poems|
    ensures r == InsertPoemsBatch(db, poems, verdicts)
    ensures r.tally.Ok? ==> r.tally.value.successful + r.tally.value.failed == |poems|
  {
    GoResumes(0, 0, db, poems, verdicts);
    var successful: nat, failed: nat := 0, 0;
    var current := db;
    var i := 0;
    while i < |poems|
      invariant 0 <= i <= |poems|
      invariant successful + failed == i
      invariant Go(successful, failed, current, poems[i..], verdicts[i..]) == Go(0, 0, db, poems, verdicts)
    {
      var call := InsertPoem(current, poems[i], verdicts[i]);
      assert poems[i..][0] == poems[i] && verdicts[i..][0] == verdicts[i];
      if call.Err? {
        return BatchOutcome(current, Err(call.error));
      }
      assert poems[i..][1..] == poems[i + 1..] && verdicts[i..][1..] == verdicts[i + 1..];
      if call.value.ok {
        successful := successful + 1;
      } else {
        failed := failed + 1;
      }
      current := call.value.db;
      i := i + 1;
    }
    r := BatchOutcome(current, Ok(Tally(successful, failed)));
  }
}

=== FILE: client.dfy ===
/**
 * `PoetryDBClient` (poetry_client.py): endpoint and URL construction, the
 * error translation of `_make_request`, and how each call shapes what the
 * service answered. The HTTP exchange itself is an input.
 */
module Client {
  import opened Results
  import opened JsonValue
  import opened Errors
  import Decimal

  const BaseUrl: string := "https://poetrydb.org/"
  const EndpointRandom: string := "random"
  const EndpointTitles: string := "titles"
  const EndpointAuthor: string := "author"

  /** What the HTTP layer produced for one GET: nothing, or a status and a body that may not decode. */
  datatype HttpOutcome =
    | NoResponse                                 // connection error or timeout
    | Response(status: int, body: Option<Json>)  // `None` when the body is not JSON

  /** A call as the client performs it: the URL it requests and what it returns or raises. */
  datatype Call<T> = Call(url: string, value: T)

  /**
   * The endpoint of `get_random_poem` (poetry_client.py:61-63): a count
   * above one is appended as a path segment; one, zero and negative counts
   * all ask for a single poem.
   */
  function RandomEndpoint(count: int): (r: string)
    ensures count <= 1 ==> r == EndpointRandom
    ensures count > 1 ==> |r| > 7 && r[..7] == EndpointRandom + "/"
    ensures count > 1 ==> Decimal.IsDigits(r[7..]) && r[7] != '0' && Decimal.Value(r[7..]) == count
    ensures count > 1 ==> Decimal.ParseInt(r[7..]) == Some(count)
  {
    if count > 1 then
      Decimal.ValueOfDecimal(count);
      Decimal.ParseIntOfDecimal(count);
      EndpointRandom + "/" + Decimal.NatToDecimal(count)
    else EndpointRandom
  }

  /** The request URL (poetry_client.py:32): the base URL and the endpoint, with nothing in between. */
  function Url(endpoint: string): (r: string)
    ensures |r| == |BaseUrl| + |endpoint|
    ensures r[..|BaseUrl|] == BaseUrl && r[|BaseUrl|..] == endpoint
  {
    BaseUrl + endpoint
  }

  /**
   * `_make_request` (poetry_client.py:18-46): the decoded body on success;
   * a transport failure, a 4xx or 5xx status (`raise_for_status`) or an
   * undecodable body all become the one `ApiException`.
   */
  function MakeRequest(outcome: HttpOutcome): (r: Result<Json, Exc>)
    ensures r.Ok? <==> (outcome.Response? && !(400 <= outcome.status < 600) && outcome.body.Some?)
    ensures r.Ok? ==> r.value == outcome.body.value
    ensures r.Err? ==> r.error.ApiException?
  {
    match outcome
    case NoResponse => Err(ApiException(Transport))
    case Response(status, body) =>
      if 400 <= status < 600 then Err(ApiException(HttpStatus(status)))
      else match body
        case None => Err(ApiException(UndecodableBody))
        case Some(data) => Ok(data)
  }

  /**
   * The list `get_random_poem` returns for decoded data
   * (poetry_client.py:66-72): a dict is wrapped, a list is passed through,
   * and any other shape gives an empty list rather than an error.
   */
  function ShapeRandom(data: Json): (r: seq<Json>)
    ensures data.JObj? ==> r == [data]
    ensures data.JArr? ==> r == data.items
    ensures |r| == 0 <==> (!data.JObj? && !data.JArr?) || data == JArr([])
  {
    match data
    case JObj(_) => [data]
    case JArr(items) => items
    case _ => []
  }

  /** `get_random_poem(count)` (poetry_client.py:48-72); request failures propagate. */
  function GetRandomPoem(count: int, outcome: HttpOutcome): (r: Call<Result<seq<Json>, Exc>>)
    ensures r.url == Url(RandomEndpoint(count))
    ensures r.value.Err? <==> MakeRequest(outcome).Err?
    ensures r.value.Err? ==> r.value.error.ApiException?
    ensures MakeRequest(outcome).Ok? ==> r.value == Ok(ShapeRandom(MakeRequest(outcome).value))
  {
    Call(Url(RandomEndpoint(count)),
      match MakeRequest(outcome)
      case Err(e) => Err(e)
      case Ok(data) => Ok(ShapeRandom(data)))
  }

  /**
   * `get_poem_titles` (poetry_client.py:74-89): any failure is swallowed
   * into an empty list; a success hands the decoded data back unchanged,
   * whatever its shape.
   */
  function GetPoemTitles(outcome: HttpOutcome): (r: Call<Json>)
    ensures r.url == BaseUrl + EndpointTitles
    ensures MakeRequest(outcome).Err? ==> r.value == JArr([])
    ensures MakeRequest(outcome).Ok? ==> r.value == MakeRequest(outcome).value
  {
    Call(Url(EndpointTitles), match MakeRequest(outcome) case Ok(data) => data case Err(_) => JArr([]))
  }

  /** `get_poem_authors` (poetry_client.py:91-105): the same error swallowing as the titles call. */
  function GetPoemAuthors(outcome: HttpOutcome): (r: Call<Json>)
    ensures r.url == BaseUrl + EndpointAuthor
    ensures MakeRequest(outcome).Err? ==> r.value == JArr([])
    ensures MakeRequest(outcome).Ok? ==> r.value == MakeRequest(outcome).value
  {
    Call(Url(EndpointAuthor), match MakeRequest(outcome) case Ok(data) => data case Err(_) => JArr([]))
  }

  /** The single-poem URL, for every count up to one. */
  lemma SinglePoemUrl(count: int)
    requires count <= 1
    ensures Url(RandomEndpoint(count)) == "https://poetrydb.org/random"
  {
  }

  /** Different counts above one request different URLs: the count is read back from the path. */
  lemma RandomUrlIdentifiesCount(a: int, b: int)
    requires a > 1 && b > 1
    requires Url(RandomEndpoint(a)) == Url(RandomEndpoint(b))
    ensures a == b
  {
    var ua := Url(RandomEndpoint(a));
    assert ua[|BaseUrl|..] == RandomEndpoint(a);
    assert Url(RandomEndpoint(b))[|BaseUrl|..] == RandomEndpoint(b);
  }

  /**
   * The same answer is shaped differently by the two kinds of call: the
   * random-poem call wraps a dict, the titles call hands it back as it is.
   */
  lemma TitlesDoNotWrap(fields: Fields)
    ensures GetRandomPoem(1, Response(200, Some(JObj(fields)))).value == Ok([JObj(fields)])
    ensures GetPoemTitles(Response(200, Some(JObj(fields)))).value == JObj(fields)
  {
  }
}

=== FILE: decimal.dfy ===
/**
 * Decimal text for integers: the `str(count)` the client puts into an
 * endpoint path, and the `int(text)` conversion the normalizer applies to a
 * `linecount` given as a string.
 */
module Decimal {
  import opened Results

  predicate IsDigit(c: char) {
    '0' <= c <= '9'
  }

  /**
   * The characters `int` skips around a number: the ASCII whitespace space,
   * tab, newline, vertical tab, form feed and carriage return, and the
   * non-ASCII characters `str.isspace` accepts, which `int` first turns into
   * spaces. The separators U+001C to U+001F pass `str.isspace` but stay as
   * they are, so `int` rejects them.
   */
  predicate IsSpace(c: char) {
    || c == ' '
    || '\t' <= c <= '\r'
    || c == '\U{0085}' || c == '\U{00A0}' || c == '\U{1680}'
    || '\U{2000}' <= c <= '\U{200A}'
    || c == '\U{2028}' || c == '\U{2029}' || c == '\U{202F}' || c == '\U{205F}' || c == '\U{3000}'
  }

  predicate AllDigits(d: string) {
    forall i :: 0 <= i < |d| ==> IsDigit(d[i])
  }

  /** A non-empty run of ASCII digits. */
  predicate IsDigits(d: string) {
    |d| > 0 && AllDigits(d)
  }

  function DigitValue(c: char): nat
    requires IsDigit(c)
  {
    (c as int) - ('0' as int)
  }

  function DigitChar(n: nat): (c: char)
    requires n < 10
    ensures IsDigit(c) && DigitValue(c) == n
  {
    ('0' as int + n) as char
  }

  /** The number a run of digits denotes, most significant digit first. */
  function Value(d: string): nat
    requires AllDigits(d)
  {
    if |d| == 0 then 0 else Value(d[..|d| - 1]) * 10 + DigitValue(d[|d| - 1])
  }

  /** The decimal text Python's `str` produces for a non-negative integer. */
  function NatToDecimal(n: nat): (r: string)
    ensures IsDigits(r)
    ensures r[0] == '0' ==> n == 0 && |r| == 1
  {
    if n < 10 then [DigitChar(n)] else NatToDecimal(n / 10) + [DigitChar(n % 10)]
  }

  function TrimLeft(s: string): string
  {
    if |s| > 0 && IsSpace(s[0]) then TrimLeft(s[1..]) else s
  }

  function TrimRight(s: string): string
  {
    if |s| > 0 && IsSpace(s[|s| - 1]) then TrimRight(s[..|s| - 1]) else s
  }

  /** `s` without its leading and trailing whitespace. */
  function Trim(s: string): (r: string)
  {
    TrimRight(TrimLeft(s))
  }

  /**
   * Python's `int(s)` on a string: optional surrounding whitespace, an
   * optional sign, then one or more ASCII digits; anything else is the
   * `ValueError` case, here `None`.
   */
  function ParseInt(s: string): (r: Option<int>)
  {
    ParseTrimmed(Trim(s))
  }

  /** The number a string without surrounding whitespace denotes, if any. */
  function ParseTrimmed(t: string): (r: Option<int>)
  {
    if |t| > 0 && (t[0] == '+' || t[0] == '-') then
      var digits := t[1..];
      if IsDigits(digits) then Some(if t[0] == '-' then -(Value(digits) as int) else Value(digits)) else None
    else if IsDigits(t) then Some(Value(t))
    else None
  }

  lemma {:induction false} ValueOfDecimal(n: nat)
    ensures Value(NatToDecimal(n)) == n
  {
    if n >= 10 {
      var d := NatToDecimal(n);
      assert d[..|d| - 1] == NatToDecimal(n / 10);
      ValueOfDecimal(n / 10);
    }
  }

  lemma TrimDigits(d: string)
    requires IsDigits(d)
    ensures Trim(d) == d
  {
    assert !IsSpace(d[0]) && !IsSpace(d[|d| - 1]);
  }

  lemma {:induction false} TrimLeftIsSuffix(s: string)
    ensures |TrimLeft(s)| <= |s| && TrimLeft(s) == s[|s| - |TrimLeft(s)|..]
  {
    if |s| > 0 && IsSpace(s[0]) {
      TrimLeftIsSuffix(s[1..]);
    }
  }

  lemma {:induction false} TrimRightIsPrefix(s: string)
    ensures |TrimRight(s)| <= |s| && TrimRight(s) == s[..|TrimRight(s)|]
  {
    if |s| > 0 && IsSpace(s[|s| - 1]) {
      TrimRightIsPrefix(s[..|s| - 1]);
    }
  }

  lemma ParseDigits(d: string)
    requires IsDigits(d)
    ensures ParseInt(d) == Some(Value(d))
  {
    TrimDigits(d);
    assert d[0] != '+' && d[0] != '-';
  }

  lemma ParseSignedDigits(sign: char, d: string)
    requires sign == '+' || sign == '-'
    requires IsDigits(d)
    ensures ParseInt([sign] + d).Some?
    ensures sign == '+' ==> ParseInt([sign] + d).value == Value(d)
    ensures sign == '-' ==> ParseInt([sign] + d).value + Value(d) == 0
  {
    var s := [sign] + d;
    assert !IsSpace(s[0]);
    assert s[|s| - 1] == d[|d| - 1];
    assert TrimLeft(s) == s;
    assert TrimRight(s) == s;
    assert s[1..] == d;
  }

  /** `int` reads back exactly the number `str` wrote, with either sign. */
  lemma ParseIntOfDecimal(n: nat)
    ensures ParseInt(NatToDecimal(n)) == Some(n)
    ensures ParseInt("+" + NatToDecimal(n)) == Some(n)
    ensures ParseInt("-" + NatToDecimal(n)).Some? && ParseInt("-" + NatToDecimal(n)).value + n == 0
  {
    var d := NatToDecimal(n);
    ValueOfDecimal(n);
    ParseDigits(d);
    ParseSignedDigits('+', d);
    ParseSignedDigits('-', d);
  }

  /**
   * The converse of `ParseIntOfDecimal`: whatever `int` accepts is, once
   * the surrounding whitespace is gone, a run of digits with at most one
   * leading sign, and it reads as the number those digits denote.
   */
  lemma ParseIntAcceptsOnlyDecimal(s: string)
    requires ParseInt(s).Some?
    ensures var t := Trim(s); var n := ParseInt(s).value;
      || (IsDigits(t) && n == Value(t))
      || (|t| > 1 && t[0] == '+' && IsDigits(t[1..]) && n == Value(t[1..]))
      || (|t| > 1 && t[0] == '-' && IsDigits(t[1..]) && n + Value(t[1..]) == 0)
  {
  }

  /** An information separator next to the digits makes `int` fail. */
  lemma SeparatorIsNotSpace()
    ensures ParseInt("\U{001C}7") == None
    ensures ParseInt("7\U{001F}") == None
  {
  }

  /** Whitespace around the number does not change what `int` reads. */
  lemma ParseIntIgnoresSurroundingSpace(n: nat, pre: string, post: string)
    requires forall i :: 0 <= i < |pre| ==> IsSpace(pre[i])
    requires forall i :: 0 <= i < |post| ==> IsSpace(post[i])
    ensures ParseInt(pre + NatToDecimal(n) + post) == Some(n)
  {
    var d := NatToDecimal(n);
    TrimLeftSpaces(pre, d + post);
    assert pre + d + post == pre + (d + post);
    TrimRightSpaces(d, post);
    ValueOfDecimal(n);
    assert d[0] != '+' && d[0] != '-';
  }

  lemma {:induction false} TrimLeftSpaces(pre: string, s: string)
    requires forall i :: 0 <= i < |pre| ==> IsSpace(pre[i])
    requires |s| > 0 && !IsSpace(s[0])
    ensures TrimLeft(pre + s) == s
  {
    if |pre| > 0 {
      assert (pre + s)[1..] == pre[1..] + s;
      TrimLeftSpaces(pre[1..], s);
    } else {
      assert pre + s == s;
    }
  }

  lemma {:induction false} TrimRightSpaces(s: string, post: string)
    requires forall i :: 0 <= i < |post| ==> IsSpace(post[i])
    requires |s| > 0 && !IsSpace(s[|s| - 1])
    ensures TrimRight(s + post) == s
  {
    if |post| > 0 {
      assert (s + post)[..|s + post| - 1] == s + post[..|post| - 1];
      TrimRightSpaces(s, post[..|post| - 1]);
    } else {
      assert s + post == s;
    }
  }

  /** A string without a single ASCII digit never converts: the `ValueError` case. */
  lemma ParseIntNeedsDigit(s: string)
    requires forall i :: 0 <= i < |s| ==> !IsDigit(s[i])
    ensures ParseInt(s) == None
  {
    var l := TrimLeft(s);
    var t := TrimRight(l);
    TrimLeftIsSuffix(s);
    TrimRightIsPrefix(l);
    assert forall i :: 0 <= i < |l| ==> l[i] == s[|s| - |l| + i];
    assert forall i :: 0 <= i < |t| ==> t[i] == l[i];
    if |t| > 0 {
      assert !IsDigit(t[0]);
    }
    if |t| > 1 {
      assert !IsDigit(t[1]);
    }
  }
}

=== FILE: errors.dfy ===
/** The exceptions the modelled code can raise or catch. */
module Errors {

  /** Why a request to the poetry web service failed (poetry_client.py:36-46). */
  datatype ApiCause =
    | Transport              // connection error or timeout
    | HttpStatus(code: int)  // a 4xx or 5xx answer, rejected by raise_for_status
    | UndecodableBody        // the body is not JSON

  /**
   * Python exceptions that reach the modelled code. `ApiException` is the one
   * plain `Exception` the client raises for every kind of request failure.
   */
  datatype Exc =
    | UnboundLocalError
    | AttributeError
    | TypeError
    | ValueError
    | ApiException(cause: ApiCause)
    | InterfaceError  // psycopg2's "connection already closed", from a call on a dead connection
}

=== FILE: fetch_data.dfy ===
/**
 * `fetch_random_poems` (fetch_data.py:6-41): one fetch-and-store run with the
 * client and a fresh, not yet connected database object as scoped resources.
 */
module FetchData {
  import opened Results
  import opened JsonValue
  import opened Errors
  import opened Normalizer
  import opened Store
  import opened Batch
  import Client

  /** The observable effects of a run, in order. */
  datatype Event =
    | Requested(url: string)  // the GET sent to the poetry web service
    | Committed               // the commit at fetch_data.py:33 went through
    | RolledBack              // the handler's rollback at fetch_data.py:38-39 went through
    | DbClosed                // `DatabaseConnection.__exit__`
    | ClientClosed            // `PoetryDBClient.__exit__`

  /** What the run returns or lets escape, the table it leaves behind, and its effects. */
  datatype Run = Run(result: Result<bool, Exc>, table: Table, log: seq<Event>)

  /** One database verdict for every poem the service returns. */
  predicate OneVerdictPerPoem(count: int, response: Client.HttpOutcome, verdicts: seq<DbVerdict>) {
    var fetched := Client.GetRandomPoem(count, response).value;
    fetched.Ok? ==> |verdicts| == |fetched.value|
  }

  /** The rollback the exception handler attempts only when a connection exists. */
  function RollbackIfConnected(db: Db): seq<Event>
  {
    if db.connected then [RolledBack] else []
  }

  /**
   * When the handler's own rollback fails, so that an exception escapes the
   * run: the connection went away during an INSERT, or before the final
   * commit. With autocommit on (conn.py:33), the commit at fetch_data.py:33
   * contacts no server, so it fails only on a connection that is gone.
   */
  predicate Escapes(batch: BatchOutcome, commitOk: bool) {
    || (batch.tally.Err? && batch.tally.error == InterfaceError)
    || (batch.tally.Ok? && batch.db.connected && !commitOk)
  }

  /**
   * Everything after the request, inside the `try` of fetch_data.py:17-41:
   * a failed fetch or no poems means False with nothing attempted and no
   * rollback, since no connection exists yet; otherwise the batch decides.
   */
  method StoreFetched(fetched: Result<seq<Json>, Exc>, table: Table, verdicts: seq<DbVerdict>, commitOk: bool)
    returns (r: Run)
    requires fetched.Ok? ==> |verdicts| == |fetched.value|
    ensures forall e :: e in r.log ==> e == Committed || e == RolledBack
    ensures RolledBack in r.log ==> r.result == Ok(false)
    ensures r.result == Ok(true) ==> r.log == [Committed] && commitOk
    ensures r.result.Err? ==> r.result.error == InterfaceError
    ensures (fetched.Err? || fetched == Ok([])) ==> r.result == Ok(false) && r.table == table && r.log == []
    ensures fetched.Ok? && fetched.value != [] ==>
      var batch := InsertPoemsBatch(Db(table, false), fetched.value, verdicts);
      && r.table == batch.db.table
      && (r.result == Ok(true) <==> (batch.tally.Ok? && batch.tally.value.successful > 0 && commitOk))
      && (r.result.Err? <==> Escapes(batch, commitOk))
      && (RolledBack in r.log <==> (batch.db.connected && batch.tally.Err? && batch.tally.error != InterfaceError))
  {
    var db := Db(table, false);
    match fetched
    case Err(_) =>
      return Run(Ok(false), table, RollbackIfConnected(db));
    case Ok(poems) =>
      if |poems| == 0 {
        return Run(Ok(false), table, []);
      }
      r := StoreBatch(poems, table, verdicts, commitOk);
  }

  /**
   * The batch and the final commit (fetch_data.py:28-41): True exactly when
   * the batch returned a tally with a success and the commit went through.
   * The table keeps every row the batch committed, whatever happens after.
   * The handler's rollback goes through exactly when the batch raised while
   * the connection was still alive and existed; on a connection that is gone
   * the rollback raises in its turn, and that exception escapes the run.
   */
  method StoreBatch(poems: seq<Json>, table: Table, verdicts: seq<DbVerdict>, commitOk: bool) returns (r: Run)
    requires |verdicts| == |poems|
    ensures forall e :: e in r.log ==> e == Committed || e == RolledBack
    ensures RolledBack in r.log ==> r.result == Ok(false)
    ensures r.result == Ok(true) ==> r.log == [Committed] && commitOk
    ensures r.result.Err? ==> r.result.error == InterfaceError && r.log == []
    ensures var batch := InsertPoemsBatch(Db(table, false), poems, verdicts);
      && r.table == batch.db.table
      && (r.result == Ok(true) <==> (batch.tally.Ok? && batch.tally.value.successful > 0 && commitOk))
      && (r.result.Err? <==> Escapes(batch, commitOk))
      && (RolledBack in r.log <==> (batch.db.connected && batch.tally.Err? && batch.tally.error != InterfaceError))
  {
    var batch := InsertPoemsBatchLoop(Db(table, false), poems, verdicts);
    match batch.tally
    case Err(e) =>
      if e == InterfaceError {
        // The handler's rollback meets the same dead connection and raises.
        r := Run(Err(InterfaceError), batch.db.table, []);
      } else {
        r := Run(Ok(false), batch.db.table, RollbackIfConnected(batch.db));
      }
    case Ok(tally) =>
      if !batch.db.connected {
        // `db.connection.commit()` on None raises AttributeError, and there is nothing to roll back.
        r := Run(Ok(false), batch.db.table, []);
      } else if commitOk {
        r := Run(Ok(tally.successful > 0), batch.db.table, [Committed]);
      } else {
        r := Run(Err(InterfaceError), batch.db.table, []);
      }
  }

  /**
   * `fetch_random_poems(count)`: the request for `count` poems comes first,
   * the database object and then the client are closed last on every path,
   * and the batch over the fetched poems and the final commit decide the
   * result as `StoreBatch` states.
   */
  method FetchRandomPoems(count: int, response: Client.HttpOutcome, table: Table,
                          verdicts: seq<DbVerdict>, commitOk: bool) returns (r: Run)
    requires OneVerdictPerPoem(count, response, verdicts)
    ensures |r.log| >= 3 && r.log[0] == Requested(Client.Url(Client.RandomEndpoint(count)))
    ensures ClosesLast(r.log)
    ensures RolledBack in r.log ==> r.result == Ok(false)
    ensures r.result == Ok(true) ==> Committed in r.log && commitOk
    ensures r.result.Err? ==> r.result.error == InterfaceError
    ensures var fetched := Client.GetRandomPoem(count, response).value;
      (fetched.Err? || fetched == Ok([])) ==> r.result == Ok(false) && r.table == table && RolledBack !in r.log
    ensures var fetched := Client.GetRandomPoem(count, response).value;
      fetched.Ok? && fetched.value != [] ==>
      var batch := InsertPoemsBatch(Db(table, false), fetched.value, verdicts);
      && r.table == batch.db.table
      && (r.result == Ok(true) <==> (batch.tally.Ok? && batch.tally.value.successful > 0 && commitOk))
      && (r.result.Err? <==> Escapes(batch, commitOk))
      && (RolledBack in r.log <==> (batch.db.connected && batch.tally.Err? && batch.tally.error != InterfaceError))
  {
    var call := Client.GetRandomPoem(count, response);
    var stored := StoreFetched(call.value, table, verdicts, commitOk);
    r := Run(stored.result, stored.table, Bracket(call.url, stored.log));
  }

  /**
   * The two `with` blocks unwind last: the database object is closed and
   * then the client, and neither is closed any earlier.
   */
  predicate ClosesLast(log: seq<Event>) {
    && |log| >= 2
    && log[|log| - 2..] == [DbClosed, ClientClosed]
    && forall i :: 0 <= i < |log| - 2 ==> log[i] != DbClosed && log[i] != ClientClosed
  }

  /**
   * The log of a run: the request first, the closes of the database object
   * and then of the client last, and the database effects in between.
   */
  function Bracket(url: string, middle: seq<Event>): (log: seq<Event>)
    requires DbClosed !in middle && ClientClosed !in middle
    ensures |log| == |middle| + 3 && log[0] == Requested(url)
    ensures ClosesLast(log)
    ensures RolledBack in log <==> RolledBack in middle
    ensures Committed in log <==> Committed in middle
  {
    var log := [Requested(url)] + middle + [DbClosed, ClientClosed];
    assert log[|log| - 2..] == [DbClosed, ClientClosed];
    assert forall i :: 1 <= i < |log| - 2 ==> log[i] == middle[i - 1];
    log
  }

  /** `main` (fetch_data.py:43-44): a single run asking for one poem. */
  method RunFetchCommand(response: Client.HttpOutcome, table: Table, verdicts: seq<DbVerdict>, commitOk: bool)
    returns (r: Run)
    requires OneVerdictPerPoem(1, response, verdicts)
    ensures |r.log| >= 3 && r.log[0] == Requested("https://poetrydb.org/random")
    ensures ClosesLast(r.log)
    ensures RolledBack in r.log ==> r.result == Ok(false)
    ensures r.result == Ok(true) ==> Committed in r.log && commitOk
    ensures r.result.Err? ==> r.result.error == InterfaceError
    ensures var fetched := Client.GetRandomPoem(1, response).value;
      (fetched.Err? || fetched == Ok([])) ==> r.result == Ok(false) && r.table == table && RolledBack !in r.log
    ensures var fetched := Client.GetRandomPoem(1, response).value;
      fetched.Ok? && fetched.value != [] ==>
      var batch := InsertPoemsBatch(Db(table, false), fetched.value, verdicts);
      && r.table == batch.db.table
      && (r.result == Ok(true) <==> (batch.tally.Ok? && batch.tally.value.successful > 0 && commitOk))
      && (r.result.Err? <==> Escapes(batch, commitOk))
      && (RolledBack in r.log <==> (batch.db.connected && batch.tally.Err? && batch.tally.error != InterfaceError))
  {
    Client.SinglePoemUrl(1);
    r := FetchRandomPoems(1, response, table, verdicts, commitOk);
  }
}

=== FILE: json_value.dfy ===
/**
 * The decoded JSON values the poetry web service returns, seen as the Python
 * objects `json.loads` builds from them (floating-point numbers excepted).
 */
module JsonValue {
  import opened Results

  datatype Json =
    | JNull
    | JBool(b: bool)
    | JInt(n: int)
    | JStr(s: string)
    | JArr(items: seq<Json>)
    | JObj(fields: seq<(string, Json)>)

  /** The key/value pairs of an object, in document order. */
  type Fields = seq<(string, Json)>

  /** Python truthiness: `None`, `False`, `0` and empty containers are false. */
  predicate Truthy(v: Json) {
    match v
    case JNull => false
    case JBool(b) => b
    case JInt(n) => n != 0
    case JStr(s) => |s| > 0
    case JArr(items) => |items| > 0
    case JObj(fields) => |fields| > 0
  }

  /**
   * The value a decoded dictionary holds for `key`. When a document repeats
   * a key, `json.loads` keeps the last value, and so does this lookup.
   */
  function Lookup(fields: Fields, key: string): (r: Option<Json>)
    ensures r.None? <==> forall i :: 0 <= i < |fields| ==> fields[i].0 != key
    ensures r.Some? ==>
      exists i :: 0 <= i < |fields| && fields[i] == (key, r.value) &&
        forall j :: i < j < |fields| ==> fields[j].0 != key
  {
    if |fields| == 0 then None
    else if fields[|fields| - 1].0 == key then Some(fields[|fields| - 1].1)
    else Lookup(fields[..|fields| - 1], key)
  }

  predicate Has(fields: Fields, key: string) {
    Lookup(fields, key).Some?
  }

  /** Python's `d.get(key, default)`. */
  function Get(fields: Fields, key: string, default: Json): (r: Json)
    ensures Has(fields, key) ==> r == Lookup(fields, key).value
    ensures !Has(fields, key) ==> r == default
  {
    match Lookup(fields, key)
    case Some(v) => v
    case None => default
  }

  /**
   * The keys of the dictionary, each once, in the order they were first
   * inserted, as iterating a Python dict yields them.
   */
  function Keys(fields: Fields): (r: seq<string>)
    ensures |r| <= |fields|
    ensures forall i, j :: 0 <= i < j < |r| ==> r[i] != r[j]
    ensures forall k :: k in r <==> Has(fields, k)
  {
    if |fields| == 0 then []
    else
      var earlier := Keys(fields[..|fields| - 1]);
      var k := fields[|fields| - 1].0;
      if k in earlier then earlier else earlier + [k]
  }

  /**
   * `ks` lists keys in the order of their first occurrence in `fields`:
   * wherever a later key occurs, an earlier one has occurred before it.
   */
  predicate FirstOccurrenceOrder(fields: Fields, ks: seq<string>) {
    forall i, j, q :: 0 <= i < j < |ks| && 0 <= q < |fields| && fields[q].0 == ks[j] ==>
      exists p :: 0 <= p < q && fields[p].0 == ks[i]
  }

  /** Iterating a dict yields its keys in the order they were first inserted. */
  lemma {:induction false} KeysInInsertionOrder(fields: Fields)
    ensures FirstOccurrenceOrder(fields, Keys(fields))
    decreases |fields|
  {
    if |fields| > 0 {
      var init := fields[..|fields| - 1];
      var r := Keys(fields);
      KeysInInsertionOrder(init);
      forall i, j, q | 0 <= i < j < |r| && 0 <= q < |fields| && fields[q].0 == r[j]
        ensures exists p :: 0 <= p < q && fields[p].0 == r[i]
      {
        if j < |Keys(init)| {
          EarlierKeysKeepOrder(fields, i, j, q);
        } else {
          NewKeyComesLast(fields, i, j, q);
        }
      }
    }
  }

  /** Two keys already present before the last pair keep their order. */
  lemma EarlierKeysKeepOrder(fields: Fields, i: nat, j: nat, q: nat)
    requires |fields| > 0
    requires FirstOccurrenceOrder(fields[..|fields| - 1], Keys(fields[..|fields| - 1]))
    requires i < j < |Keys(fields[..|fields| - 1])|
    requires q < |fields| && fields[q].0 == Keys(fields)[j]
    ensures exists p :: 0 <= p < q && fields[p].0 == Keys(fields)[i]
  {
    var init := fields[..|fields| - 1];
    var earlier := Keys(init);
    assert Keys(fields)[i] == earlier[i] && Keys(fields)[j] == earlier[j];
    // An occurrence of the later key inside `init`, no later than `q`.
    var q' := if q < |init| then q else Occurrence(init, earlier[j]);
    assert init[q'].0 == earlier[j];
    var p :| 0 <= p < q' && init[p].0 == earlier[i];
    assert fields[p] == init[p];
  }

  /** A key the last pair introduces comes after every key before it. */
  lemma NewKeyComesLast(fields: Fields, i: nat, j: nat, q: nat)
    requires |fields| > 0
    requires i < j < |Keys(fields)| && j >= |Keys(fields[..|fields| - 1])|
    requires q < |fields| && fields[q].0 == Keys(fields)[j]
    ensures exists p :: 0 <= p < q && fields[p].0 == Keys(fields)[i]
  {
    var init := fields[..|fields| - 1];
    var earlier := Keys(init);
    var k := fields[|fields| - 1].0;
    assert Keys(fields)[j] == k && !Has(init, k);
    assert q == |fields| - 1;
    var p := Occurrence(init, earlier[i]);
    assert fields[p] == init[p];
  }

  /** A position at which a present key occurs. */
  function Occurrence(fields: Fields, key: string): (p: nat)
    requires Has(fields, key)
    ensures p < |fields| && fields[p].0 == key
  {
    if fields[|fields| - 1].0 == key then |fields| - 1 else Occurrence(fields[..|fields| - 1], key)
  }
}

=== FILE: normalizer.dfy ===
/**
 * The first half of `DatabaseConnection.insert_poem` (conn.py:94-128): turning
 * one loosely shaped payload into the four insert parameters
 * `(title, author, lines, linecount)`.
 */
module Normalizer {
  import opened Results
  import opened JsonValue
  import opened Errors
  import Decimal

  /** The four positional parameters of the INSERT statement, in order. */
  datatype Row = Row(title: Json, author: Json, lines: seq<Json>, linecount: int)

  /** How far a payload gets before the database is involved. */
  datatype Normalized =
    | Ready(row: Row)    // go on to the INSERT
    | NoData             // an empty list: `insert_poem` returns False
    | WrongType          // neither a dict nor a list: `insert_poem` returns False
    | Raised(exc: Exc)   // `insert_poem` raises

  const DefaultTitle: Json := JStr("Unknown Title")
  const DefaultAuthor: Json := JStr("Unknown Author")

  /**
   * Python's `list(v)`: containers are iterated, scalars raise `TypeError`.
   * Strings never reach it, since conn.py:114-115 wraps them first.
   */
  function ListOf(v: Json): Result<seq<Json>, Exc>
    requires !v.JStr?
  {
    match v
    case JArr(items) => Ok(items)
    case JObj(fields) => Ok(KeyStrings(fields))
    case _ => Err(TypeError)
  }

  /** The keys of a dict as the string values `list` yields for them. */
  function KeyStrings(fields: Fields): (r: seq<Json>)
    ensures |r| == |Keys(fields)|
    ensures forall i :: 0 <= i < |r| ==> r[i] == JStr(Keys(fields)[i])
  {
    seq(|Keys(fields)|, i requires 0 <= i < |Keys(fields)| => JStr(Keys(fields)[i]))
  }

  /**
   * The `lines` value coerced to a list (conn.py:111-116): `None` becomes
   * empty, a string is wrapped, and any falsy value becomes empty before
   * `list` is applied.
   */
  function CoerceLines(v: Json): (r: Result<seq<Json>, Exc>)
    ensures v.JNull? ==> r == Ok([])
    ensures v.JStr? ==> r == Ok([v])
    ensures v.JArr? ==> r == Ok(v.items)
    ensures v.JObj? ==> r.Ok? && |r.value| == |Keys(v.fields)| <= |v.fields|
    ensures v.JObj? ==> forall i :: 0 <= i < |r.value| ==> r.value[i] == JStr(Keys(v.fields)[i])
    ensures v == JBool(false) || v == JInt(0) ==> r == Ok([])
    ensures r.Err? <==> (v == JBool(true) || (v.JInt? && v.n != 0))
    ensures r.Err? ==> r.error == TypeError
  {
    if v.JNull? then Ok([])
    else
      var wrapped := if v.JStr? then JArr([v]) else v;
      if Truthy(wrapped) then ListOf(wrapped) else Ok([])
  }

  /** Python's `int(v)` on the JSON shapes modelled here. */
  function IntOf(v: Json): Result<int, Exc>
  {
    match v
    case JInt(n) => Ok(n)
    case JBool(b) => Ok(if b then 1 else 0)
    case JStr(s) => (match Decimal.ParseInt(s) case Some(n) => Ok(n) case None => Err(ValueError))
    case _ => Err(TypeError)
  }

  /**
   * The `linecount` parameter (conn.py:119-126): an absent or null value, or
   * one `int` rejects, falls back to the number of lines; anything `int`
   * accepts is kept as it is, unchecked against the lines.
   */
  function CoerceLinecount(v: Json, lines: seq<Json>): (r: int)
    ensures v.JNull? ==> r == |lines|
    ensures v.JInt? ==> r == v.n
    ensures v.JBool? ==> r == (if v.b then 1 else 0)
    ensures v.JStr? && Decimal.ParseInt(v.s).Some? ==> r == Decimal.ParseInt(v.s).value
    ensures v.JStr? && Decimal.ParseInt(v.s).None? ==> r == |lines|
    ensures v.JArr? || v.JObj? ==> r == |lines|
  {
    if v.JNull? then |lines|
    else
      match IntOf(v)
      case Ok(n) => n
      case Err(_) => |lines|
  }

  /**
   * The row built from a dictionary (conn.py:107-126). Title and author fall
   * back to their defaults only when the key is missing; a present value,
   * even null or empty, is passed on. Only a non-iterable truthy `lines`
   * (a non-zero number or `true`) makes it raise.
   */
  function FromRecord(fields: Fields): (r: Normalized)
    ensures r.Ready? || r == Raised(TypeError)
    ensures r.Raised? <==> (var v := Get(fields, "lines", JArr([])); v == JBool(true) || (v.JInt? && v.n != 0))
    ensures r.Ready? && !Has(fields, "title") ==> r.row.title == DefaultTitle
    ensures r.Ready? && Has(fields, "title") ==> r.row.title == Lookup(fields, "title").value
    ensures r.Ready? && !Has(fields, "author") ==> r.row.author == DefaultAuthor
    ensures r.Ready? && Has(fields, "author") ==> r.row.author == Lookup(fields, "author").value
    ensures r.Ready? && (!Has(fields, "lines") || Lookup(fields, "lines").value == JNull) ==> r.row.lines == []
    ensures r.Ready? && Has(fields, "lines") && Lookup(fields, "lines").value.JStr? ==>
      r.row.lines == [Lookup(fields, "lines").value]
    ensures r.Ready? && Has(fields, "lines") && Lookup(fields, "lines").value.JArr? ==>
      r.row.lines == Lookup(fields, "lines").value.items
    ensures r.Ready? && (!Has(fields, "linecount") || Lookup(fields, "linecount").value == JNull) ==>
      r.row.linecount == |r.row.lines|
    ensures r.Ready? && Has(fields, "linecount") && Lookup(fields, "linecount").value.JInt? ==>
      r.row.linecount == Lookup(fields, "linecount").value.n
    ensures r.Ready? ==> CoerceLines(Get(fields, "lines", JArr([]))) == Ok(r.row.lines)
    ensures r.Ready? ==> r.row.linecount == CoerceLinecount(Get(fields, "linecount", JNull), r.row.lines)
  {
    var title := Get(fields, "title", DefaultTitle);
    var author := Get(fields, "author", DefaultAuthor);
    match CoerceLines(Get(fields, "lines", JArr([])))
    case Err(e) => Raised(e)
    case Ok(lines) => Ready(Row(title, author, lines, CoerceLinecount(Get(fields, "linecount", JNull), lines)))
  }

  /**
   * `insert_poem`'s input handling as evidently intended (conn.py:94-104):
   * a non-empty list stands for its first element, an empty list is
   * rejected, and so is anything that is neither a list nor a dict. A first
   * element that is not a dict has no `.get`, so the call raises.
   */
  function Normalize(poem: Json): (r: Normalized)
    ensures r == NoData <==> poem == JArr([])
    ensures r == WrongType <==> (!poem.JArr? && !poem.JObj?)
    ensures poem.JArr? && |poem.items| > 0 && !poem.items[0].JObj? ==> r == Raised(AttributeError)
    ensures r.Raised? ==> r.exc == TypeError || r.exc == AttributeError
  {
    match poem
    case JArr(items) =>
      if |items| == 0 then NoData
      else if items[0].JObj? then FromRecord(items[0].fields)
      else Raised(AttributeError)
    case JObj(fields) => FromRecord(fields)
    case _ => WrongType
  }

  /**
   * `insert_poem`'s input handling as written: conn.py:95 reads `poem_data`
   * before conn.py:98 assigns it, so every list raises `UnboundLocalError`.
   */
  function NormalizeAsWritten(poem: Json): (r: Normalized)
    ensures poem.JArr? ==> r == Raised(UnboundLocalError)
    ensures !poem.JArr? ==> r == Normalize(poem)
  {
    match poem
    case JArr(_) => Raised(UnboundLocalError)
    case JObj(fields) => FromRecord(fields)
    case _ => WrongType
  }

  /** The record shape the poetry web service sends; it writes `linecount` as a string. */
  function ServiceRecord(title: string, author: string, lines: seq<string>, linecount: nat): Json
  {
    JObj([
      ("title", JStr(title)),
      ("author", JStr(author)),
      ("lines", JArr(seq(|lines|, i requires 0 <= i < |lines| => JStr(lines[i])))),
      ("linecount", JStr(Decimal.NatToDecimal(linecount)))
    ])
  }

  /** A well-formed service record normalizes to exactly the values it carries. */
  lemma ServiceRecordRoundTrip(title: string, author: string, lines: seq<string>, linecount: nat)
    ensures Normalize(ServiceRecord(title, author, lines, linecount)) ==
      Ready(Row(JStr(title), JStr(author), seq(|lines|, i requires 0 <= i < |lines| => JStr(lines[i])), linecount))
  {
    ServiceRecordFields(title, author, lines, linecount);
    Decimal.ParseIntOfDecimal(linecount);
  }

  /** Each of the four keys of a service record finds the value written for it. */
  lemma ServiceRecordFields(title: string, author: string, lines: seq<string>, linecount: nat)
    ensures var fields := ServiceRecord(title, author, lines, linecount).fields;
      && Lookup(fields, "title") == Some(JStr(title))
      && Lookup(fields, "author") == Some(JStr(author))
      && Lookup(fields, "lines") == Some(JArr(seq(|lines|, i requires 0 <= i < |lines| => JStr(lines[i]))))
      && Lookup(fields, "linecount") == Some(JStr(Decimal.NatToDecimal(linecount)))
  {
    var fields := ServiceRecord(title, author, lines, linecount).fields;
    assert fields[..3][..2][..1] == [fields[0]];
    assert fields[..3][..2] == [fields[0], fields[1]];
    assert Lookup(fields[..3][..2], "author") == Some(JStr(author));
  }

  /**
   * A non-empty list stands for its first element: a dict there is handled
   * as if it had come alone, and the other elements are ignored.
   */
  lemma OnlyFirstElementMatters(first: Json, rest: seq<Json>, other: seq<Json>)
    ensures Normalize(JArr([first] + rest)) == Normalize(JArr([first] + other))
    ensures first.JObj? ==> Normalize(JArr([first] + rest)) == Normalize(first)
  {
  }

  /** The defaults when nothing but an empty dict arrives. */
  lemma EmptyRecordDefaults()
    ensures Normalize(JObj([])) == Ready(Row(DefaultTitle, DefaultAuthor, [], 0))
  {
  }

  /**
   * A `linecount` `int` cannot read (such as "12a", "1.5" or "") falls back
   * to the number of lines, and one it can read is trusted even when it
   * contradicts them, whatever else the record holds.
   */
  lemma LinecountFallback(fields: Fields, text: string, n: int)
    requires Decimal.ParseInt(text) == None
    ensures var r := FromRecord(fields + [("linecount", JStr(text))]);
      r.Ready? ==> r.row.linecount == |r.row.lines|
    ensures var r := FromRecord(fields + [("linecount", JInt(n))]);
      r.Ready? ==> r.row.linecount == n
  {
  }

  /** Strings `int` rejects although they contain digits. */
  lemma MalformedCounts()
    ensures Decimal.ParseInt("12a") == None
    ensures Decimal.ParseInt("1.5") == None
    ensures Decimal.ParseInt("1 2") == None
  {
  }

  /** conn.py:94-98 as written rejects the list payload the intended code accepts. */
  lemma ListPayloadDiscrepancy(record: Fields)
    ensures NormalizeAsWritten(JArr([JObj(record)])) == Raised(UnboundLocalError)
    ensures Normalize(JArr([JObj(record)])) == FromRecord(record)
    ensures Normalize(JArr([JObj([])])).Ready?
  {
  }
}

=== FILE: results.dfy ===
/** Failure-carrying wrappers shared by every module of the model. */
module Results {

  /** A value that may be missing, as returned by a dictionary lookup. */
  datatype Option<+T> = None | Some(value: T)

  /** Either a value or the error that was raised instead of producing it. */
  datatype Result<+T, +E> = Ok(value: T) | Err(error: E)
}

=== FILE: store.dfy ===
/**
 * The `poems` table and the database half of `DatabaseConnection`:
 * executing one INSERT with commit-or-rollback (conn.py:128-139) and reading
 * every row back in id order (conn.py:141-144).
 */
module Store {
  import opened Results
  import opened JsonValue
  import opened Errors
  import opened Normalizer

  /** A row as `get_all_poems` returns it, without the server's `created_at`. */
  datatype StoredRow = StoredRow(id: nat, row: Row)

  /** The table: rows by serial id, and the id the next insert receives. */
  datatype Table = Table(rows: map<nat, Row>, nextId: nat) {

    /** Every id handed out so far lies below the next one. */
    predicate Valid() {
      forall id :: id in rows ==> id < nextId
    }

    /** One committed INSERT: the row takes the next serial id. */
    function Insert(row: Row): (t: Table)
      ensures Valid() ==> t.Valid()
      ensures t.nextId == nextId + 1
      ensures t.rows.Keys == rows.Keys + {nextId} && t.rows[nextId] == row
      ensures forall id :: id in rows && id != nextId ==> t.rows[id] == rows[id]
    {
      Table(rows[nextId := row], nextId + 1)
    }
  }

  /** The connection object: the table behind it, and whether it has connected yet. */
  datatype Db = Db(table: Table, connected: bool)

  /** What the database server does with one INSERT attempt; the model takes it as an input. */
  datatype DbVerdict =
    | Stored       // executed and committed
    | Refused      // connected, but the statement failed and was rolled back
    | Unreachable  // the connection attempt failed; nothing was executed
    | Lost         // the connection went away: the INSERT fails, and so does every rollback after it

  /** The result of one `insert_poem` call that returned normally. */
  datatype Step = Step(ok: bool, db: Db)

  /**
   * Executing the INSERT (conn.py:130-139 through `execute_query`,
   * conn.py:62-77). A stored row commits on its own and the call returns
   * True. A refused statement is rolled back, and a failed connection attempt
   * leaves nothing to roll back; both are reported as False. A connection
   * that has gone away makes the rollbacks at conn.py:76 and conn.py:138 fail
   * too, and the second failure escapes `insert_poem`.
   */
  function Execute(db: Db, row: Row, v: DbVerdict): (r: Result<Step, Exc>)
    ensures r.Err? <==> v.Lost?
    ensures r.Err? ==> r.error == InterfaceError
    ensures r.Ok? ==> (r.value.ok <==> v.Stored?)
    ensures r.Ok? ==> (r.value.db.connected <==> (db.connected || !v.Unreachable?))
  {
    match v
    case Stored => Ok(Step(true, Db(db.table.Insert(row), true)))
    case Refused => Ok(Step(false, Db(db.table, true)))
    case Unreachable => Ok(Step(false, db))
    case Lost => Err(InterfaceError)
  }

  /** Whether `insert_poem` raises on this payload when the server answers `v`. */
  predicate Raises(poem: Json, v: DbVerdict) {
    Normalize(poem).Raised? || (Normalize(poem).Ready? && v.Lost?)
  }

  /** What it raises then: the normalizer's exception, or the failed rollback's. */
  function RaisedBy(poem: Json, v: DbVerdict): Exc
    requires Raises(poem, v)
  {
    if Normalize(poem).Raised? then Normalize(poem).exc else InterfaceError
  }

  /**
   * `insert_poem` (conn.py:79-139) with the list handling repaired: True
   * exactly when the payload normalizes and the server stores the row, which
   * is then the only change to the table; False leaves the table as it was.
   * It raises when normalization raises, or when the row meets a lost
   * connection.
   */
  function InsertPoem(db: Db, poem: Json, v: DbVerdict): (r: Result<Step, Exc>)
    ensures r.Err? <==> Raises(poem, v)
    ensures r.Err? ==> r.error == RaisedBy(poem, v)
    ensures r.Err? && Normalize(poem).Ready? ==> r.error == InterfaceError
    ensures (r.Ok? && r.value.ok) <==> (Normalize(poem).Ready? && v.Stored?)
    ensures r.Ok? && r.value.ok ==> r.value.db.table == db.table.Insert(Normalize(poem).row)
    ensures r.Ok? && !r.value.ok ==> r.value.db.table == db.table
    ensures r.Ok? && (db.connected || r.value.ok) ==> r.value.db.connected
    ensures r.Ok? ==> (r.value.db.connected <==> (db.connected || (Normalize(poem).Ready? && !v.Unreachable?)))
  {
    match Normalize(poem)
    case Ready(row) => Execute(db, row, v)
    case NoData => Ok(Step(false, db))
    case WrongType => Ok(Step(false, db))
    case Raised(e) => Err(e)
  }

  /** The rows with an id below `below`, in ascending id order. */
  function Scan(rows: map<nat, Row>, below: nat): seq<StoredRow>
  {
    if below == 0 then []
    else
      var id := below - 1;
      Scan(rows, id) + (if id in rows then [StoredRow(id, rows[id])] else [])
  }

  lemma {:induction false} ScanOrdered(rows: map<nat, Row>, below: nat)
    ensures var r := Scan(rows, below);
      && (forall i, j :: 0 <= i < j < |r| ==> r[i].id < r[j].id)
      && (forall e :: e in r ==> e.id < below && e.id in rows && rows[e.id] == e.row)
      && (forall id :: id in rows && id < below ==> StoredRow(id, rows[id]) in r)
  {
    if below > 0 {
      ScanOrdered(rows, below - 1);
    }
  }

  /**
   * `get_all_poems` (conn.py:141-144): every stored row exactly once, sorted
   * strictly ascending by id.
   */
  function GetAllPoems(t: Table): (r: seq<StoredRow>)
    requires t.Valid()
    ensures forall i, j :: 0 <= i < j < |r| ==> r[i].id < r[j].id
    ensures forall e :: e in r ==> e.id in t.rows && t.rows[e.id] == e.row
    ensures forall id :: id in t.rows ==> StoredRow(id, t.rows[id]) in r
  {
    ScanOrdered(t.rows, t.nextId);
    Scan(t.rows, t.nextId)
  }

  /** Committing `rows` one after another, in order. */
  function InsertAll(t: Table, rows: seq<Row>): (r: Table)
    ensures r.nextId == t.nextId + |rows|
    ensures t.Valid() ==> r.Valid()
    ensures forall id :: id in t.rows && id < t.nextId ==> id in r.rows && r.rows[id] == t.rows[id]
    decreases |rows|
  {
    if |rows| == 0 then t else InsertAll(t.Insert(rows[0]), rows[1..])
  }

  /** `rows` as they read back when their ids start at `first`. */
  function Numbered(first: nat, rows: seq<Row>): (r: seq<StoredRow>)
    ensures |r| == |rows|
    ensures forall i :: 0 <= i < |r| ==> r[i] == StoredRow(first + i, rows[i])
    decreases |rows|
  {
    if |rows| == 0 then [] else [StoredRow(first, rows[0])] + Numbered(first + 1, rows[1..])
  }

  lemma {:induction false} ScanAgrees(m: map<nat, Row>, m': map<nat, Row>, below: nat)
    requires forall id :: id < below ==> (id in m <==> id in m')
    requires forall id :: id < below && id in m ==> m[id] == m'[id]
    ensures Scan(m, below) == Scan(m', below)
  {
    if below > 0 {
      ScanAgrees(m, m', below - 1);
    }
  }

  lemma ScanInsert(t: Table, row: Row)
    requires t.Valid()
    ensures var t' := t.Insert(row); Scan(t'.rows, t'.nextId) == Scan(t.rows, t.nextId) + [StoredRow(t.nextId, row)]
  {
    ScanAgrees(t.rows, t.Insert(row).rows, t.nextId);
  }

  /** After a committed INSERT the listing is the old listing plus the new row at its end. */
  lemma InsertListing(t: Table, row: Row)
    requires t.Valid()
    ensures GetAllPoems(t.Insert(row)) == GetAllPoems(t) + [StoredRow(t.nextId, row)]
  {
    ScanInsert(t, row);
  }

  lemma {:induction false} ScanInsertAll(t: Table, rows: seq<Row>)
    requires t.Valid()
    ensures var r := InsertAll(t, rows); Scan(r.rows, r.nextId) == Scan(t.rows, t.nextId) + Numbered(t.nextId, rows)
    decreases |rows|
  {
    if |rows| > 0 {
      var t' := t.Insert(rows[0]);
      var r := InsertAll(t, rows);
      var head := [StoredRow(t.nextId, rows[0])];
      var tail := Numbered(t'.nextId, rows[1..]);
      var before := Scan(t.rows, t.nextId);
      var middle := Scan(t'.rows, t'.nextId);
      var after := Scan(r.rows, r.nextId);
      assert r == InsertAll(t', rows[1..]);
      assert Numbered(t.nextId, rows) == head + tail;
      assert middle == before + head by {
        ScanInsert(t, rows[0]);
      }
      assert after == middle + tail by {
        ScanInsertAll(t', rows[1..]);
      }
      Regroup(before, head, tail, middle, after);
    }
  }

  /**
   * The listing after the first row and then the rest: kept apart so that
   * the solver meets the concatenations without the tables behind them.
   */
  lemma Regroup(before: seq<StoredRow>, head: seq<StoredRow>, tail: seq<StoredRow>,
                middle: seq<StoredRow>, after: seq<StoredRow>)
    requires middle == before + head && after == middle + tail
    ensures after == before + (head + tail)
  {
  }

  /** Committing several rows appends them to the listing, numbered consecutively. */
  lemma InsertAllListing(t: Table, rows: seq<Row>)
    requires t.Valid()
    ensures GetAllPoems(InsertAll(t, rows)) == GetAllPoems(t) + Numbered(t.nextId, rows)
  {
    ScanInsertAll(t, rows);
  }

  /** A True from `insert_poem` makes the normalized row the new last row of the listing. */
  lemma InsertPoemListing(db: Db, poem: Json, v: DbVerdict)
    requires db.table.Valid()
    ensures var r := InsertPoem(db, poem, v);
      r.Ok? && r.value.ok ==>
        GetAllPoems(r.value.db.table) == GetAllPoems(db.table) + [StoredRow(db.table.nextId, Normalize(poem).row)]
    ensures var r := InsertPoem(db, poem, v);
      r.Ok? && !r.value.ok ==> GetAllPoems(r.value.db.table) == GetAllPoems(db.table)
  {
    if Normalize(poem).Ready? {
      InsertListing(db.table, Normalize(poem).row);
    }
  }
}
